=== FILE: README.md ===
# Receipt upload: filename validation and the upload decision procedure

This project models the request-handling core of a small receipt-scanning web
service. A client posts an image in the multipart field `file`; the service
checks that the field is present, that a file name was given and that the
name ends in an allowed image extension (`png`, `jpg` or `jpeg`, in any
case, judged by the text after the last `.`), then runs OCR on the image,
stores the file name and the recognised text in a `receipts` table inside a
transaction, and answers with JSON: a success object carrying the extracted
text, or an object with an `error` string.

- `optional.dfy` — module `Optional`: the `Option` datatype.
- `filenames.dfy` — module `Filenames`: the allow-set, ASCII lower-casing,
  splitting a name at its last `.`, the `AllowedFile` predicate, and a
  reference definition (`HasAllowedSuffix`) it is proved equal to.
- `upload.dfy` — module `Upload`: the request, the image and database
  outcomes (abstract inputs), the calls the handler makes (`Image.open`,
  OCR call, INSERT, commit, rollback) as an ordered trace, the response, and
  `HandleUpload`.
  An automaton over effects (`Step`, `Run`) is the partner definition: every
  handler trace is accepted by it, ends with no open transaction, and holds at
  most one INSERT.

The JSON bodies are modelled as the `Response` datatype: `ErrorReply(error)`
for `{'error': ...}`, `SuccessReply(message, extractedText)` for the success
object (whose `success` field is always true), and `Unhandled` for an
exception that escapes the handler, which the framework turns into its own
500 response: `Image.open` unable to identify the image (app.py:48), the
`image_to_string` call raising (app.py:51, which includes image data past a
valid header that only fails to load there), or a rollback that itself raises inside the `except`
clause (app.py:62).

The handler stores and returns the OCR text exactly as recognised: the text
from app.py:51 is what app.py:57 inserts and app.py:60 returns.

## Model

| member | source | states |
|---|---|---|
| Filenames.AllowedFile | app.py:21-22 | an accepted name contains a `.` and is at least four characters long |
| Filenames.AllowedExtensionHasNoDot | app.py:11 | none of `png`, `jpg`, `jpeg` contains a `.`, so a name whose lower-cased text after some `.` is allowed has no later `.` |
| Filenames.LowerChar | app.py:22 | lower-casing changes only ASCII capitals, to the letter 32 code points above; the result is never an ASCII capital and is `.` exactly when the input is |
| Filenames.Lower | app.py:22 | lower-casing keeps the length and maps each character by `LowerChar`, so every `.` stays in place and no ASCII capital remains; with LowerSuffix and LowerIdempotent it commutes with taking suffixes and is idempotent |
| Filenames.LastIndexOf | app.py:22 | the result is absent exactly when the character does not occur; otherwise it is a position holding the character with no occurrence after it |
| Filenames.LastIndexOfJoin | app.py:22 | in `head + [c] + tail` with no `c` in `tail`, the last `c` is the joining one |
| Filenames.RSplitAtDot | app.py:22 | splitting at the last `.` fails exactly when there is no `.`; otherwise head, `.`, tail rejoin to the name and the tail has no `.` |
| Filenames.RSplitJoin | app.py:22 | splitting `head + "." + tail`, with no `.` in `tail`, gives back `(head, tail)`: the split inverts the join |
| Filenames.Extension | app.py:22 | the extension is absent exactly when the name has no `.`; otherwise it is the `.`-free suffix that follows a `.` |
| Filenames.OnlyLastExtensionMatters | app.py:22 | a name `head + "." + tail` with `.`-free `tail` is accepted iff the lower-cased `tail` is in the allow-set, whatever `head` is |
| Filenames.AllowedFileIffSuffix | app.py:11-22 | acceptance equals the reference definition: some `.` is followed by text that lower-cases to `png`, `jpg` or `jpeg` (both directions) |
| Filenames.AllowedFileHasSuffix | app.py:21-22 | an accepted name has an allowed lower-cased suffix after a `.` |
| Filenames.SuffixAllowsFile | app.py:21-22 | a `.` followed by an allowed lower-cased suffix makes the name accepted |
| Filenames.LowerSuffix | app.py:22 | lower-casing commutes with taking a suffix |
| Filenames.LowerIdempotent | app.py:22 | lower-casing twice is lower-casing once |
| Filenames.CaseInsensitive | app.py:22 | two names that lower-case to the same text are both accepted or both rejected |
| Filenames.AllowedFileOfLower | app.py:22 | a name is accepted iff its lower-cased form is |
| Filenames.ExampleLeadingDot | app.py:22 | `.png` is accepted |
| Filenames.ExampleEmptyExtension | app.py:22 | `x.` is rejected |
| Filenames.ExampleNoDot | app.py:22 | `png` and the empty name are rejected |
| Filenames.ExampleLastPartAccepted | app.py:22 | `a.txt.png` is accepted |
| Filenames.ExampleLastPartRejected | app.py:22 | `a.png.txt` is rejected |
| Filenames.ExampleUpperCase | app.py:22 | `RECEIPT.JPG` is accepted |
| Filenames.ExampleMixedCase | app.py:22 | `r.JpEg` is accepted |
| Upload.HandleUpload | app.py:33-67 | a missing `file` part answers `No file part`, an empty name `No selected file`, a disallowed name `Invalid file type`, each with no effect; the answer is success iff validation passes, OCR returns text and this request's INSERT and commit calls do not raise, and then carries exactly the OCR text; a request that reaches the database makes exactly the calls decode, OCR, INSERT of (file name, OCR text), then the database calls of `DatabaseCalls`, and after a database exception answers as `AfterRollback`; an exception from `Image.open` escapes before `image_to_string` is called, one from `image_to_string` right after that call |
| Upload.DatabaseCalls | app.py:55-64 | after the INSERT, the commit is called unless the INSERT raised, the rollback exactly when the INSERT or the commit raised, each at most once, the rollback last; so a failed INSERT is never followed by a commit |
| Upload.AfterRollback | app.py:61-64 | the `except` clause never answers success; it answers the exception's message exactly when the rollback succeeded |
| Upload.AcceptedInsertsBounded | app.py:55-64 | any effect sequence the transaction automaton accepts holds at most one INSERT from the start |
| Upload.HandlerFollowsProtocol | app.py:47-64 | every handler trace is accepted by the automaton, leaves no transaction open, and the answer is success iff the trace ends committed |
| Upload.RunConcat | app.py:47-64 | running the automaton over two concatenated traces is running it over the first and then, from where that ends, over the second |
| Upload.TransactionTraces | app.py:55-64 | helper of HandlerFollowsProtocol: the automaton evaluated on the three database traces (insert then commit; insert then rollback; insert, commit, rollback), ending committed, closed and closed |
| Upload.AtMostOneInsert | app.py:55-58 | each request makes at most one INSERT attempt |
| Upload.OcrOnlyWhenValid | app.py:33-51 | `Image.open` is called iff the request passes all three checks, and `image_to_string` iff moreover `Image.open` identified the image; a rejected request has no effect at all |
| Upload.InvalidIgnoresBackends | app.py:33-43 | a request failing validation gets the same error answer whatever OCR and the database would do |
| Upload.SuccessReturnsStoredText | app.py:56-60 | a success answer carries exactly the text this request passed to its INSERT with the upload's file name, after its commit call and with no rollback |
| Upload.RollbackIffDatabaseRaised | app.py:55-64 | a rollback is attempted iff the INSERT or the commit raised; the answer is then never a success, and is the error reply iff the rollback succeeded |
| Upload.UnhandledIffExceptionEscapes | app.py:47-64 | an exception escapes iff the request is valid and `Image.open` raised, `image_to_string` raised, or the rollback after a database exception raised |

## Left out

- Lower-casing covers ASCII only: non-ASCII characters are left unchanged, where Python's `str.lower` applies Unicode case mapping. No character outside ASCII lower-cases to the letters of `png`, `jpg` or `jpeg`, so this does not change which names are accepted.
- The HTTP framework, routing, the `GET /` page and `jsonify`: responses are the `Response` datatype, not JSON text. Every JSON reply is sent with status 200; `Unhandled` stands for the framework's 500 response (or its debugger page under `debug=True`, app.py:71), whose content is not modelled.
- Image decoding and the OCR engine (app.py:47-51): their result is an input (`ImageOutcome`): recognised text, `Image.open` failing to identify the image, or `image_to_string` raising. Image data that fails to load after a valid header raises inside `image_to_string` and counts as `OcrRaised`, although the OCR engine itself never runs then.
- The MySQL connection and shared cursor (app.py:14-19): the INSERT, the commit and the rollback are abstract outcomes (`DbOutcome`, `RollbackOutcome`). A connection that failed at start-up leaves `cursor` and `db` undefined; that case is the INSERT raising followed by the rollback raising.
- Concurrent requests: requests are modelled one at a time. The development server started at app.py:71 serves requests on several threads that share the one connection and cursor (app.py:15-16), so another request's commit or rollback can land between this request's INSERT and commit; that interleaving is not modelled. `Stored` means only that this request's INSERT and commit calls did not raise, not that its row is in the table, and the success answer says nothing more.
- The hard-coded Tesseract path, the credentials, and all logging `print` calls: no effect on the decision procedure.
- The `file and` test on app.py:43: a file part is truthy exactly when its name is non-empty, which the preceding test already ensures, so the model tests the name alone.
- The image pre-processing steps, the text cleaner and the line-item parser with its `items` table: they are not part of this model, because the handler modelled here calls none of them.
- `static/scripts.js`: browser-side upload form and preview; not part of this model.

=== FILE: filenames.dfy ===
/** The filename check that decides whether an uploaded receipt image is
    accepted: the text after the last '.' of the name, lower-cased, must be
    one of the allowed image extensions. */
module Filenames {

  import opened Optional

  /** The extensions an upload may carry (app.py, line 11). */
  const AllowedExtensions: set<string> := {"png", "jpg", "jpeg"}

  const Dot: char := '.'

  predicate IsAsciiUpper(c: char) {
    'A' <= c <= 'Z'
  }

  /** Lower-cases one character; only the ASCII capitals change. */
  function LowerChar(c: char): (d: char)
    ensures !IsAsciiUpper(d)
    ensures d == c || (IsAsciiUpper(c) && d as int == c as int + 32)
    ensures d == Dot <==> c == Dot
  {
    if IsAsciiUpper(c) then (c as int + 32) as char else c
  }

  /** Lower-cases a string character by character, as str.lower does on
      ASCII text. */
  function Lower(s: string): (r: string)
    ensures |r| == |s|
    ensures forall i :: 0 <= i < |s| ==> r[i] == LowerChar(s[i])
  {
    seq(|s|, i requires 0 <= i < |s| => LowerChar(s[i]))
  }

  /** The position of the last occurrence of c in s, if any. */
  function LastIndexOf(s: string, c: char): (r: Option<nat>)
    ensures r.None? <==> c !in s
    ensures r.Some? ==> r.value < |s| && s[r.value] == c && c !in s[r.value + 1..]
  {
    if |s| == 0 then None
    else if s[|s| - 1] == c then Some(|s| - 1)
    else LastIndexOf(s[..|s| - 1], c)
  }

  /** Splits s once at its last '.', as s.rsplit('.', 1) does when the
      result has two parts; None when s has no '.'. */
  function RSplitAtDot(s: string): (r: Option<(string, string)>)
    ensures r.None? <==> Dot !in s
    ensures r.Some? ==> r.value.0 + [Dot] + r.value.1 == s && Dot !in r.value.1
  {
    match LastIndexOf(s, Dot)
    case None => None
    case Some(i) =>
      assert s[..i] + [Dot] + s[i + 1..] == s by {
        assert s == s[..i] + s[i..];
        assert s[i..] == [Dot] + s[i + 1..];
      }
      Some((s[..i], s[i + 1..]))
  }

  /** The text after the last '.' of s, if s has a '.'. */
  function Extension(s: string): (r: Option<string>)
    ensures r.None? <==> Dot !in s
    ensures r.Some? ==> Dot !in r.value && |r.value| < |s|
    ensures r.Some? ==> s[|s| - |r.value| - 1] == Dot && s[|s| - |r.value|..] == r.value
  {
    match RSplitAtDot(s)
    case None => None
    case Some((head, tail)) =>
      assert s == head + [Dot] + tail;
      assert s[|s| - |tail|..] == tail;
      Some(tail)
  }

  /** allowed_file (app.py, lines 21-22). */
  predicate AllowedFile(filename: string): (ok: bool)
    ensures ok ==> Dot in filename && |filename| >= 4
  {
    Dot in filename && Lower(Extension(filename).value) in AllowedExtensions
  }

  /** Reference definition: the name has some '.' after which the rest of
      the name, lower-cased, is an allowed extension. It does not mention the
      last '.', so it also says that no other part of the name is looked at. */
  ghost predicate HasAllowedSuffix(filename: string) {
    exists k :: 0 <= k < |filename| && filename[k] == Dot && Lower(filename[k + 1..]) in AllowedExtensions
  }

  /** No allowed extension, whatever its case, contains a '.'. */
  lemma AllowedExtensionHasNoDot(e: string)
    requires Lower(e) in AllowedExtensions
    ensures Dot !in e
  {
  }

  /** Splitting at the last '.' undoes joining around a '.' when the part
      after it has no '.' of its own. */
  lemma RSplitJoin(head: string, tail: string)
    requires Dot !in tail
    ensures RSplitAtDot(head + [Dot] + tail) == Some((head, tail))
  {
    var s := head + [Dot] + tail;
    LastIndexOfJoin(head, Dot, tail);
    assert s[..|head|] == head;
    assert s[|head| + 1..] == tail;
  }

  /** The last c of head + [c] + tail is the joining one when tail has no c. */
  lemma {:induction false} LastIndexOfJoin(head: string, c: char, tail: string)
    requires c !in tail
    ensures LastIndexOf(head + [c] + tail, c) == Some(|head|)
    decreases |tail|
  {
    var s := head + [c] + tail;
    if tail != [] {
      var t' := tail[..|tail| - 1];
      assert s[|s| - 1] == tail[|tail| - 1];
      assert s[..|s| - 1] == head + [c] + t';
      LastIndexOfJoin(head, c, t');
    }
  }

  /** Only the text after the last '.' is examined: a name built from any
      head, a '.', and a '.'-free tail is accepted exactly when the tail,
      lower-cased, is an allowed extension. */
  lemma OnlyLastExtensionMatters(name: string, head: string, tail: string)
    requires name == head + [Dot] + tail && Dot !in tail
    ensures AllowedFile(name) <==> Lower(tail) in AllowedExtensions
  {
    RSplitJoin(head, tail);
  }

  /** allowed_file agrees with the reference definition, in both directions. */
  lemma AllowedFileIffSuffix(filename: string)
    ensures AllowedFile(filename) <==> HasAllowedSuffix(filename)
  {
    if AllowedFile(filename) {
      AllowedFileHasSuffix(filename);
    }
    if HasAllowedSuffix(filename) {
      var k :| 0 <= k < |filename| && filename[k] == Dot && Lower(filename[k + 1..]) in AllowedExtensions;
      SuffixAllowsFile(filename, k);
    }
  }

  lemma AllowedFileHasSuffix(filename: string)
    requires AllowedFile(filename)
    ensures HasAllowedSuffix(filename)
  {
    var e := Extension(filename).value;
    var k := |filename| - |e| - 1;
    assert filename[k + 1..] == e;
  }

  lemma SuffixAllowsFile(filename: string, k: nat)
    requires k < |filename| && filename[k] == Dot
    requires Lower(filename[k + 1..]) in AllowedExtensions
    ensures AllowedFile(filename)
  {
    AllowedExtensionHasNoDot(filename[k + 1..]);
    assert filename == filename[..k] + [Dot] + filename[k + 1..];
    OnlyLastExtensionMatters(filename, filename[..k], filename[k + 1..]);
  }

  /** Lower-casing commutes with taking a
      suffix. */
  lemma LowerSuffix(s: string, k: nat)
    requires k <= |s|
    ensures Lower(s[k..]) == Lower(s)[k..]
  {
  }

  /** The check is case-insensitive: two names that lower-case to the same
      text are both accepted or both rejected. */
  lemma CaseInsensitive(s: string, t: string)
    requires Lower(s) == Lower(t)
    ensures AllowedFile(s) <==> AllowedFile(t)
  {
    AllowedFileIffSuffix(s);
    AllowedFileIffSuffix(t);
    assert |s| == |t|;
    forall k | 0 <= k < |s|
      ensures s[k] == Dot <==> t[k] == Dot
      ensures Lower(s[k + 1..]) == Lower(t[k + 1..])
    {
      assert Lower(s)[k] == Lower(t)[k];
      LowerSuffix(s, k + 1);
      LowerSuffix(t, k + 1);
    }
  }

  /** Lower-casing twice is lower-casing once. */
  lemma LowerIdempotent(s: string)
    ensures Lower(Lower(s)) == Lower(s)
  {
  }

  /** In particular a name and its lower-cased form are judged alike. */
  lemma AllowedFileOfLower(s: string)
    ensures AllowedFile(Lower(s)) <==> AllowedFile(s)
  {
    LowerIdempotent(s);
    CaseInsensitive(Lower(s), s);
  }

  /** The edge cases the definition settles. */
  lemma ExampleLeadingDot()
    ensures AllowedFile(".png")
  {
    assert Lower("png") == "png";
    OnlyLastExtensionMatters(".png", "", "png");
  }

  lemma ExampleEmptyExtension()
    ensures !AllowedFile("x.")
  {
    OnlyLastExtensionMatters("x.", "x", "");
  }

  lemma ExampleNoDot()
    ensures !AllowedFile("png") && !AllowedFile("")
  {
  }

  lemma ExampleLastPartAccepted()
    ensures AllowedFile("a.txt.png")
  {
    assert Lower("png") == "png";
    OnlyLastExtensionMatters("a.txt.png", "a.txt", "png");
  }

  lemma ExampleLastPartRejected()
    ensures !AllowedFile("a.png.txt")
  {
    assert Lower("txt") == "txt";
    assert "txt" !in AllowedExtensions;
    OnlyLastExtensionMatters("a.png.txt", "a.png", "txt");
  }

  lemma ExampleUpperCase()
    ensures AllowedFile("RECEIPT.JPG")
  {
    assert Lower("JPG") == "jpg";
    OnlyLastExtensionMatters("RECEIPT.JPG", "RECEIPT", "JPG");
  }

  lemma ExampleMixedCase()
    ensures AllowedFile("r.JpEg")
  {
    assert Lower("JpEg") == "jpeg";
    OnlyLastExtensionMatters("r.JpEg", "r", "JpEg");
  }
}

=== FILE: optional.dfy ===
/** A value that may be absent. */
module Optional {

  datatype Option<+T> = None | Some(value: T)

}

=== FILE: upload.dfy ===
/** The decision procedure of the /upload handler: three validation steps,
    then opening the image and OCR, then one INSERT that is either committed or
    rolled back. The image decoder, the OCR engine and the database are not
    modelled; their outcomes are inputs, and the steps the handler takes on
    them are recorded in order. */
module Upload {

  import opened Optional
  import opened Filenames

  /** The multipart field named "file"; the image bytes are not needed, only
      the name the client sent. */
  datatype FilePart = FilePart(filename: string)

  /** A POST to /upload: the "file" field may be absent. */
  datatype Request = Request(file: Option<FilePart>)

  /** What opening the uploaded bytes as an image and running OCR on it
      produced: the recognised text; `DecodeRaised`, Image.open could not
      identify the image (image_to_string is then never called); or
      `OcrRaised`, the image_to_string call raised, including image data past
      a valid header that fails to load there. */
  datatype ImageOutcome = Recognized(text: string) | DecodeRaised | OcrRaised

  /** Whether the rollback in the exception handler itself succeeded. */
  datatype RollbackOutcome = RolledBack | RollbackRaised

  /** What the database did with the INSERT and the commit that follows it;
      when either raised, also what the rollback that follows did. */
  datatype DbOutcome =
    | Stored
    | InsertRaised(message: string, rollback: RollbackOutcome)
    | CommitRaised(message: string, rollback: RollbackOutcome)

  /** A call the handler makes: `DecodeImage` is the call to Image.open
      (which reads only the header), `RunOcr` the call to image_to_string,
      the others calls on the database. A call that raised is still
      recorded. */
  datatype Effect = DecodeImage | RunOcr | Insert(filename: string, text: string) | Commit | Rollback

  /** The JSON body returned, or an exception escaping the handler. */
  datatype Response =
    | ErrorReply(error: string)
    | SuccessReply(message: string, extractedText: string)
    | Unhandled

  datatype Outcome = Outcome(response: Response, effects: seq<Effect>)

  const NoFilePart := "No file part"
  const NoSelectedFile := "No selected file"
  const InvalidFileType := "Invalid file type"
  const ProcessedMessage := "File processed successfully"

  /** The last element of a sequence, if any. */
  function Last<T>(s: seq<T>): Option<T> {
    if s == [] then None else Some(s[|s| - 1])
  }

  /** The request passes all three validation steps. */
  predicate ValidUpload(req: Request) {
    req.file.Some? && req.file.value.filename != "" && AllowedFile(req.file.value.filename)
  }

  /** The database failed and the rollback raised as well: the exception
      escapes the handler's except clause. */
  predicate RollbackFailed(db: DbOutcome) {
    !db.Stored? && db.rollback.RollbackRaised?
  }

  /** upload_file (app.py, lines 33-67). */
  function HandleUpload(req: Request, image: ImageOutcome, db: DbOutcome): (out: Outcome)
    ensures req.file.None? ==> out == Outcome(ErrorReply(NoFilePart), [])
    ensures req.file.Some? && req.file.value.filename == "" ==> out == Outcome(ErrorReply(NoSelectedFile), [])
    ensures req.file.Some? && req.file.value.filename != "" && !AllowedFile(req.file.value.filename) ==>
              out == Outcome(ErrorReply(InvalidFileType), [])
    ensures out.response.SuccessReply? <==> ValidUpload(req) && image.Recognized? && db.Stored?
    ensures out.response.SuccessReply? ==> out.response == SuccessReply(ProcessedMessage, image.text)
    ensures ValidUpload(req) && image.Recognized? ==>
              out.effects == [DecodeImage, RunOcr, Insert(req.file.value.filename, image.text)] + DatabaseCalls(db)
    ensures ValidUpload(req) && image.Recognized? && !db.Stored? ==>
              out.response == AfterRollback(db.message, db.rollback)
    ensures ValidUpload(req) && image.DecodeRaised? ==> out == Outcome(Unhandled, [DecodeImage])
    ensures ValidUpload(req) && image.OcrRaised? ==> out == Outcome(Unhandled, [DecodeImage, RunOcr])
  {
    match req.file
    case None => Outcome(ErrorReply(NoFilePart), [])
    case Some(part) =>
      if part.filename == "" then Outcome(ErrorReply(NoSelectedFile), [])
      else if !AllowedFile(part.filename) then Outcome(ErrorReply(InvalidFileType), [])
      else
        match image
        case DecodeRaised => Outcome(Unhandled, [DecodeImage])
        case OcrRaised => Outcome(Unhandled, [DecodeImage, RunOcr])
        case Recognized(text) =>
          var calls := [DecodeImage, RunOcr, Insert(part.filename, text)] + DatabaseCalls(db);
          match db
          case Stored => Outcome(SuccessReply(ProcessedMessage, text), calls)
          case InsertRaised(message, rollback) => Outcome(AfterRollback(message, rollback), calls)
          case CommitRaised(message, rollback) => Outcome(AfterRollback(message, rollback), calls)
  }

  /** The database calls that follow the INSERT (app.py, lines 58 and 62):
      the commit is called unless the INSERT raised, the rollback exactly
      when the INSERT or the commit raised, and the rollback comes last. */
  function DatabaseCalls(db: DbOutcome): (calls: seq<Effect>)
    ensures Commit in calls <==> !db.InsertRaised?
    ensures Rollback in calls <==> !db.Stored?
    ensures Last(calls) == Some(if db.Stored? then Commit else Rollback)
    ensures forall i :: 0 <= i < |calls| ==> calls[i] == Commit || calls[i] == Rollback
    ensures |calls| == (if db.CommitRaised? then 2 else 1)
    ensures Commit in calls && Rollback in calls ==> calls == [Commit, Rollback]
  {
    match db
    case Stored => [Commit]
    case InsertRaised(_, _) => [Rollback]
    case CommitRaised(_, _) => [Commit, Rollback]
  }

  /** The answer of the except clause (app.py, lines 61-64): the exception's
      message when the rollback succeeded; an escaping exception otherwise. */
  function AfterRollback(message: string, rollback: RollbackOutcome): (r: Response)
    ensures !r.SuccessReply?
    ensures r.ErrorReply? <==> rollback.RolledBack?
    ensures r.ErrorReply? ==> r.error == message
  {
    match rollback
    case RolledBack => ErrorReply(message)
    case RollbackRaised => Unhandled
  }

  /* The handler's dealings with the image, the OCR engine and the database,
     as an automaton: Image.open, then image_to_string, then at most one INSERT, which
     opens a transaction that a commit or a rollback call closes. A rollback
     may follow a commit that raised. The automaton records calls, so a
     rollback that raised still reaches Closed. */

  datatype Phase = Idle | Decoded | Recognizing | Open | Committed | Closed

  function Step(p: Phase, e: Effect): Option<Phase> {
    match (p, e)
    case (Idle, DecodeImage) => Some(Decoded)
    case (Decoded, RunOcr) => Some(Recognizing)
    case (Recognizing, Insert(_, _)) => Some(Open)
    case (Open, Commit) => Some(Committed)
    case (Open, Rollback) => Some(Closed)
    case (Committed, Rollback) => Some(Closed)
    case _ => None
  }

  /** The phase reached from p by the given effects, None if some effect is
      not allowed where it occurs. */
  function Run(p: Phase, effects: seq<Effect>): Option<Phase>
    decreases |effects|
  {
    if effects == [] then Some(p)
    else match Step(p, effects[0])
      case None => None
      case Some(q) => Run(q, effects[1..])
  }

  /** No transaction is left without a commit or a rollback call. */
  predicate Settled(p: Phase) {
    p != Open
  }

  function InsertCount(effects: seq<Effect>): nat
    decreases |effects|
  {
    if effects == [] then 0
    else (if effects[0].Insert? then 1 else 0) + InsertCount(effects[1..])
  }

  /** How many INSERTs the automaton still allows from phase p. */
  function InsertsLeft(p: Phase): nat {
    if p == Idle || p == Decoded || p == Recognizing then 1 else 0
  }

  /** Every sequence of effects the automaton accepts holds at most as many
      INSERTs as the starting phase allows. */
  lemma {:induction false} AcceptedInsertsBounded(p: Phase, effects: seq<Effect>)
    requires Run(p, effects).Some?
    ensures InsertCount(effects) <= InsertsLeft(p)
    decreases |effects|
  {
    if effects != [] {
      var q := Step(p, effects[0]).value;
      AcceptedInsertsBounded(q, effects[1..]);
    }
  }

  /** Every run of the handler follows the automaton from Idle and leaves no
      transaction open; it answers with success exactly when it ends in the
      committed phase. */
  lemma HandlerFollowsProtocol(req: Request, image: ImageOutcome, db: DbOutcome)
    ensures Run(Idle, HandleUpload(req, image, db).effects).Some?
    ensures Settled(Run(Idle, HandleUpload(req, image, db).effects).value)
    ensures HandleUpload(req, image, db).response.SuccessReply? <==>
              Run(Idle, HandleUpload(req, image, db).effects) == Some(Committed)
  {
    var effects := HandleUpload(req, image, db).effects;
    if ValidUpload(req) && image.Recognized? {
      var insert := Insert(req.file.value.filename, image.text);
      TransactionTraces(insert);
      match db
      case Stored =>
        assert effects == [DecodeImage, RunOcr, insert] + [Commit];
      case InsertRaised(_, _) =>
        assert effects == [DecodeImage, RunOcr, insert] + [Rollback];
      case CommitRaised(_, _) =>
        assert effects == [DecodeImage, RunOcr, insert] + [Commit, Rollback];
    } else if ValidUpload(req) && image.OcrRaised? {
      assert Run(Decoded, [RunOcr]) == Some(Recognizing);
    }
  }

  /** Running the automaton over a concatenation runs it over each part in
      turn. */
  lemma {:induction false} RunConcat(p: Phase, first: seq<Effect>, rest: seq<Effect>)
    ensures Run(p, first + rest) == (if Run(p, first).Some? then Run(Run(p, first).value, rest) else None)
    decreases |first|
  {
    if first != [] {
      assert (first + rest)[0] == first[0];
      assert (first + rest)[1..] == first[1..] + rest;
      if Step(p, first[0]).Some? {
        RunConcat(Step(p, first[0]).value, first[1..], rest);
      }
    } else {
      assert first + rest == rest;
    }
  }

  /** Helper of HandlerFollowsProtocol, evaluating the automaton on the three
      traces of a request that reaches the database: a commit ends
      committed; a rollback, with or without a commit before it, ends
      closed. */
  lemma TransactionTraces(insert: Effect)
    requires insert.Insert?
    ensures Run(Idle, [DecodeImage, RunOcr, insert] + [Commit]) == Some(Committed)
    ensures Run(Idle, [DecodeImage, RunOcr, insert] + [Rollback]) == Some(Closed)
    ensures Run(Idle, [DecodeImage, RunOcr, insert] + [Commit, Rollback]) == Some(Closed)
  {
    var stored := [DecodeImage, RunOcr, insert];
    assert Run(Recognizing, [insert]) == Some(Open);
    assert Run(Decoded, [RunOcr, insert]) == Some(Open);
    assert Run(Idle, stored) == Some(Open);
    assert Run(Committed, [Rollback]) == Some(Closed);
    RunConcat(Idle, stored, [Commit]);
    RunConcat(Idle, stored, [Rollback]);
    RunConcat(Idle, stored, [Commit, Rollback]);
  }

  /** Each request makes at most one INSERT attempt. */
  lemma AtMostOneInsert(req: Request, image: ImageOutcome, db: DbOutcome)
    ensures InsertCount(HandleUpload(req, image, db).effects) <= 1
  {
    HandlerFollowsProtocol(req, image, db);
    AcceptedInsertsBounded(Idle, HandleUpload(req, image, db).effects);
  }

  /** Image.open is called exactly for the requests that pass validation,
      and image_to_string exactly for those whose image Image.open
      identified; the others touch neither OCR nor the database. */
  lemma OcrOnlyWhenValid(req: Request, image: ImageOutcome, db: DbOutcome)
    ensures DecodeImage in HandleUpload(req, image, db).effects <==> ValidUpload(req)
    ensures RunOcr in HandleUpload(req, image, db).effects <==> ValidUpload(req) && !image.DecodeRaised?
    ensures HandleUpload(req, image, db).effects == [] <==> !ValidUpload(req)
  {
  }

  /** A request that fails validation gets the same answer whatever the
      image, the OCR engine and the database would have done. */
  lemma InvalidIgnoresBackends(req: Request, image1: ImageOutcome, db1: DbOutcome, image2: ImageOutcome, db2: DbOutcome)
    requires !ValidUpload(req)
    ensures HandleUpload(req, image1, db1) == HandleUpload(req, image2, db2)
    ensures HandleUpload(req, image1, db1).response.ErrorReply?
  {
  }

  /** A success answer carries exactly the text this request passed to its
      INSERT together with the uploaded filename, and this request's commit
      call returned, with no rollback. */
  lemma SuccessReturnsStoredText(req: Request, image: ImageOutcome, db: DbOutcome)
    requires HandleUpload(req, image, db).response.SuccessReply?
    ensures Insert(req.file.value.filename, HandleUpload(req, image, db).response.extractedText)
              in HandleUpload(req, image, db).effects
    ensures Commit in HandleUpload(req, image, db).effects
    ensures Rollback !in HandleUpload(req, image, db).effects
  {
  }

  /** A rollback is attempted exactly when the database raised; the answer
      is then never a success, and it is the error reply exactly when the
      rollback itself succeeded. */
  lemma RollbackIffDatabaseRaised(req: Request, image: ImageOutcome, db: DbOutcome)
    ensures Rollback in HandleUpload(req, image, db).effects <==> ValidUpload(req) && image.Recognized? && !db.Stored?
    ensures Rollback in HandleUpload(req, image, db).effects ==> !HandleUpload(req, image, db).response.SuccessReply?
    ensures Rollback in HandleUpload(req, image, db).effects ==>
              (HandleUpload(req, image, db).response.ErrorReply? <==> db.rollback.RolledBack?)
  {
    var effects := HandleUpload(req, image, db).effects;
    if ValidUpload(req) && image.Recognized? {
      assert Rollback !in [DecodeImage, RunOcr, Insert(req.file.value.filename, image.text)];
    } else {
      assert |effects| <= 2;
    }
  }

  /** An exception escapes the handler exactly when Image.open, image_to_string, or the
      rollback after a database failure raised. */
  lemma UnhandledIffExceptionEscapes(req: Request, image: ImageOutcome, db: DbOutcome)
    ensures HandleUpload(req, image, db).response.Unhandled? <==>
              ValidUpload(req) && (!image.Recognized? || RollbackFailed(db))
  {
  }
}
